=== FILE: README.md ===
# Stakedex quote and refresh core, in Dafny

This project models the quote-computation and state-refresh core of the stakedex SDK. The SDK quotes conversions between SOL, stake accounts and liquid-staking pool tokens across several stake pools. The model covers:

- **Prefund flash-loan sizing** (`Prefund`). A router transaction borrows `PREFUND_FLASH_LOAN_LAMPORTS`, twice a stake account's rent-exempt minimum. It repays the loan by instantly unstaking a "slumdog" stake account through unstake.it. `SlumdogTargetLamports` sizes that account by inverting unstake.it's fee. `PrefundSplitLamports` is the part carved off the user's stake. The parameters are rebuilt from four accounts (`TryInit`, `Update`).
- **SPL stake-pool withdraw-stake quote** (`SplStakePool`). The fee, burnt-token, exchange-rate and zero-withdrawal checks are those of the SPL program (libs/spl_stake_pool/src/lib.rs:72-88). The SDK adds an Active-only check before them (lib.rs:64-68), and the active-stake ceiling and rent subtraction after them (lib.rs:90-98). The module also holds the epoch staleness test.
- **unstake.it deposit-stake quote** (`UnstakeIt`). The fee is deducted with saturation. The payout is then compared against the SOL reserves with a rent-exempt floor. Every infeasible case gives the all-zero default quote.
- **Adapter refresh** for the SPL adapter, its reserve-tracking WithdrawSol variant (`SplStakePoolBase`) and the Socean adapter (`SoceanStakePool`). Each has initialisation, the list of addresses to track, and the sequential lookup-then-parse refresh.

Conventions:

- `u64` is the subset type `U64`. `saturating_sub` and `checked_sub` are written out in `Common`.
- Each `&mut self` refresh is a pure function returning `Updated(state, result)`. The state is what the Rust code leaves behind, including on error.
- Code the core calls but does not define is a total function field of an environment record passed as a parameter (`UnstakeLib`, `SplLib`, `SoceanLib`). This covers borsh/bincode deserialisation, `apply_fee`, `FeeEnum::pseudo_reverse`, the SPL program's `calc_pool_tokens_stake_withdrawal_fee` and `calc_lamports_withdraw_amount`, address derivation and base58 display. Each function returns `None` where the Rust function returns `None` or an error.

Behaviours of the code worth knowing:

- **Refresh is not atomic.** In both adapters the code stores the stake pool before it looks up the validator list (libs/spl_stake_pool/src/stakedex_traits/base.rs:80, libs/socean_stake_pool/src/stakedex_traits/base.rs:53). It stores the validator list before the next lookup too. When the newly parsed pool is deposit-capped, the SPL adapter then looks up the deposit-cap guard (base.rs:87). Socean always looks up the clock next. A later missing or malformed account therefore leaves a partly refreshed adapter. `SplStakePoolBase.Update`, `SoceanStakePool.MissingClockLeavesPartialRefresh` and `SoceanStakePool.FailedRefreshCanChangeState` state this. Only the prefund parameters are rebuilt all-or-nothing (`Prefund.Update`).
- **The validator-list key comes from the new pool.** The refresh reads the validator-list address from the pool it has just parsed. The tracked addresses were computed from the previous pool. A snapshot can therefore hold every tracked address and still fail (`SplStakePoolBase.StaleValidatorListKeyFailsRefresh`).
- **Hard errors, not sentinels.** The withdraw quote (libs/spl_stake_pool/src/lib.rs:58-105) rejects an inactive validator, a dust amount or an excess withdrawal with a `StakePoolError`. It also rejects a withdrawal below a stake account's rent-exempt minimum. The unstake.it deposit quote instead answers every infeasible case with the all-zero default quote.
- **SPL refresh never updates the epoch.** `curr_epoch` is set only at initialisation, from the router's clock. After a refresh, `is_updated_this_epoch` therefore compares against that epoch (`SplStakePoolBase.UpdatedThisEpochAfterRefresh`).

## Model

| member | source | states |
|---|---|---|
| `Prefund.ExtractFeeEnum` | jup_interface/src/pool_pair/prefund.rs:99-105 | Missing fee account gives `AccountMissing(FEE_ID)`. Unparseable data gives `Deserialize`. Otherwise the parsed fee schedule. |
| `Prefund.ExtractIncomingStake` | jup_interface/src/pool_pair/prefund.rs:107-113 | Missing pool account gives `AccountMissing(POOL_ID)`. Unparseable data gives `Deserialize`. Otherwise the pool's `incoming_stake`. |
| `Prefund.ExtractSolReservesLamports` | jup_interface/src/pool_pair/prefund.rs:115-123 | Succeeds iff the reserves account is present. The value is the account's lamport balance, never its data. |
| `Prefund.ExtractProtocolFeeDest` | jup_interface/src/pool_pair/prefund.rs:125-132 | Missing protocol-fee account gives `AccountMissing`. Unparseable data gives `Deserialize`. Otherwise the parsed `destination`. |
| `Prefund.TryInit` | jup_interface/src/pool_pair/prefund.rs:38-49 | Succeeds iff all four accounts are present and the three data accounts parse. Each field then comes from its account, with the reserves taken from lamports. On failure the error is the first failing extraction's, in the order fee, pool, reserves, protocol fee. Each extraction's own contract fixes that error. |
| `Prefund.Update` | jup_interface/src/pool_pair/prefund.rs:38-63 | Succeeds under the same condition as `TryInit`. On success it leaves exactly what `TryInit` builds from the same snapshot. On failure it returns `TryInit`'s error and leaves the parameters unchanged, because every extraction precedes the assignment. |
| `Prefund.TrackedAccountsAreExactlyTheReads` | jup_interface/src/pool_pair/prefund.rs:31-36 | Snapshots that agree on the four `ACCOUNTS_TO_UPDATE` initialise identically. Removing any one of the four from a working snapshot makes it fail. |
| `Prefund.SlumdogTargetLamports` | jup_interface/src/pool_pair/prefund.rs:67-81 | Fails with `NotEnoughLiquidity` iff reserves < 2 × stake rent + empty-account rent. Otherwise the result is `pseudo_reverse` at {incoming stake, reserves} for a net of the flash loan, and `None` becomes `PseudoReverseMathError`. |
| `Prefund.SlumdogLiquidityBoundary` | jup_interface/src/pool_pair/prefund.rs:68-71 | Reserves exactly equal to loan + empty-account rent pass the liquidity check. One lamport less fails it. |
| `Prefund.PrefundSplitLamports` | jup_interface/src/pool_pair/prefund.rs:93-96 | Propagates the slumdog error. Otherwise it returns the target less the stake rent, or 0 when the target is below the rent. The result never exceeds the target. |
| `SplStakePool.UpdateStakePool` | libs/spl_stake_pool/src/lib.rs:44-47 | When the data parses, only the stake pool changes. Otherwise the adapter is unchanged and the result is `Deserialize`. |
| `SplStakePool.UpdateValidatorList` | libs/spl_stake_pool/src/lib.rs:49-52 | When the data parses, only the validator list changes. Otherwise the adapter is unchanged and the result is `Deserialize`. |
| `SplStakePool.IsUpdatedThisEpoch` | libs/spl_stake_pool/src/lib.rs:54-56 | True iff the pool's last update epoch is at least the adapter's current epoch. |
| `SplStakePool.GetQuoteForValidatorCopied` | libs/spl_stake_pool/src/lib.rs:58-105 | Requires a valid validator index, because the source unwraps. The checks run in order: a non-Active entry gives `InvalidState` before any fee arithmetic; an uncomputable or unaffordable fee gives `CalculationFailure`, and so does burnt pool tokens the exchange rate cannot convert; 0 lamports gives `WithdrawalTooSmall`, checked before the ceiling; exceeding the active stake gives `InvalidState`. Succeeds iff the entry is active and the withdrawal lies in [stake rent, active stake]. The quote is then well formed: staked + rent = out, out ≤ active stake, the fee is the pool-token fee, and the voter is the entry's vote account. |
| `SplStakePool.WithdrawBelowRentIsCalculationFailure` | libs/spl_stake_pool/src/lib.rs:96-98 | A nonzero, within-ceiling withdrawal below the stake rent-exempt minimum is a `CalculationFailure`. |
| `UnstakeIt.CanAcceptStakeDeposits` | libs/unstake_it/src/stakedex_traits/deposit_stake.rs:19-21 | Always true. |
| `UnstakeIt.DepositStakeQuoteUnchecked` | libs/unstake_it/src/stakedex_traits/deposit_stake.rs:23-53 | No fee gives the default quote. Otherwise the result is a quote of (lamports_out saturating-minus fee, fee, input voter) exactly when that payout is allowed against the reserves, and the default quote otherwise. Any result pays at most the stake's value and at most the reserves. |
| `UnstakeIt.PayoutBoundaries` | libs/unstake_it/src/stakedex_traits/deposit_stake.rs:37-47 | Given the fee the curve charges, with the net payout equal to lamports out saturating-minus that fee: a net above the reserves gives the default quote. A net equal to the reserves gives the quote (net, fee, voter). A smaller net gives the default quote when the remaining reserves fall below the empty-account rent-exempt minimum, and the quote (net, fee, voter) otherwise. |
| `UnstakeIt.ReservesOneBelowFloorIsSentinel` | libs/unstake_it/src/stakedex_traits/deposit_stake.rs:40-44 | A payout that would leave one lamport less than the rent-exempt floor in the reserves yields the default quote. |
| `UnstakeIt.FlatFeeExample` | libs/unstake_it/src/stakedex_traits/deposit_stake.rs:27-52 | With a flat 0.3% fee, any withdraw quote of 10,000,000 lamports against 5,000,000,000 of reserves gives fee 30,000, 9,970,000 out and the same voter. |
| `SplStakePoolBase.NewUninitialized` | libs/spl_stake_pool/src/stakedex_traits/base.rs:21-27 | The uninitialised adapter keeps the given program, pool address and epoch. Its validator list is empty and it has no deposit-cap state. |
| `SplStakePoolBase.StakePoolLabel` | libs/spl_stake_pool/src/stakedex_traits/base.rs:31-37 | The label ends in " stake pool". It is preceded by the string parameter when one is given, and by the pool mint's display otherwise. |
| `SplStakePoolBase.FromKeyedAccount` | libs/spl_stake_pool/src/stakedex_traits/base.rs:13-41 | Succeeds iff the main account parses. The result has that pool, the key as address, the owner as program, the router's epoch, an empty validator list and the label rule applied. |
| `SplStakePoolBase.GetAccountsToUpdate` | libs/spl_stake_pool/src/stakedex_traits/base.rs:66-72 | The list is [pool address, pool's validator list]. The deposit-cap guard address is appended iff SOL or stake deposits are capped. |
| `SplStakePoolBase.Update` | libs/spl_stake_pool/src/stakedex_traits/base.rs:74-96 | A missing or malformed main account changes nothing. Once the main account parses, the pool is replaced whatever happens next. Each later failure leaves exactly the state reached so far. A missing validator list is reported under the NEW pool's key, and a malformed one leaves the new pool with the old list. Once the list parses it is stored too. Uncapped, the refresh then succeeds. Capped, a missing guard gives `AccountMissing(guard)`, a malformed guard gives `Deserialize`, and a parsed guard is stored as the deposit cap. Succeeds iff every required account is present and parses. On success every tracked address of the refreshed adapter is in the snapshot. Identity fields and the epoch never change. |
| `SplStakePoolBase.UpdateReadsOnlyTrackedAccounts` | libs/spl_stake_pool/src/stakedex_traits/base.rs:66-96 | The refresh reads only the main account and the addresses the refreshed adapter tracks. Snapshots agreeing on those give identical outcomes. |
| `SplStakePoolBase.StaleValidatorListKeyFailsRefresh` | libs/spl_stake_pool/src/stakedex_traits/base.rs:80-86 | When the main account now names an untracked validator list, some snapshot holding every tracked address fails with `AccountMissing(new key)`. That failure leaves the new pool in place. |
| `SplStakePoolBase.UpdateIsIdempotent` | libs/spl_stake_pool/src/stakedex_traits/base.rs:74-96 | After a successful refresh, applying the same snapshot again changes nothing. |
| `SplStakePoolBase.UpdatedThisEpochAfterRefresh` | libs/spl_stake_pool/src/stakedex_traits/base.rs:74-96 | The refresh keeps the initialisation epoch. Staleness after it compares the new pool's last update against that epoch. |
| `SplStakePoolBase.WithdrawSolFromKeyedAccount` | libs/spl_stake_pool/src/stakedex_traits/base.rs:99-107 | Succeeds iff the plain initialisation does. The result wraps it with no reserve balance. |
| `SplStakePoolBase.WithdrawSolGetAccountsToUpdate` | libs/spl_stake_pool/src/stakedex_traits/base.rs:131-135 | The list is the plain adapter's list followed by the pool's reserve stake address. |
| `SplStakePoolBase.WithdrawSolUpdate` | libs/spl_stake_pool/src/stakedex_traits/base.rs:137-146 | The inner adapter always ends as the plain refresh leaves it, and inner errors propagate. A missing reserve stake gives `AccountMissing`. A zero balance gives `WrongStakeStake`. Any failure keeps the old reserve balance. Succeeds iff the inner refresh succeeds and the reserve balance is nonzero. The balance is then stored as `Some`. |
| `SoceanStakePool.FromKeyedAccount` | libs/socean_stake_pool/src/stakedex_traits/base.rs:11-20 | Succeeds iff the main account parses. The result is the default state with only the pool replaced. |
| `SoceanStakePool.GetAccountsToUpdate` | libs/socean_stake_pool/src/stakedex_traits/base.rs:39-45 | The list is exactly [Socean pool ID, current pool's validator list, clock sysvar]. |
| `SoceanStakePool.Update` | libs/socean_stake_pool/src/stakedex_traits/base.rs:47-68 | A missing or malformed main account changes nothing. Once it parses, the pool is replaced whatever happens next. The validator list is looked up under the new pool's key. A missing or malformed list leaves the new pool with the old list. Once the list parses it is stored. A missing clock then gives `AccountMissing(clock)`, and a malformed clock gives `Deserialize`, both with the old epoch. A parsed clock sets the epoch and the refresh succeeds. The epoch changes only on success, and then to the clock's epoch. Succeeds iff all three accounts are present and parse. |
| `SoceanStakePool.MissingClockLeavesPartialRefresh` | libs/socean_stake_pool/src/stakedex_traits/base.rs:53-63 | A missing clock is reported after the pool and validator list were replaced. The old epoch is kept. |
| `SoceanStakePool.FailedRefreshCanChangeState` | libs/socean_stake_pool/src/stakedex_traits/base.rs:47-59 | From any state, some snapshot makes the refresh fail yet change the adapter. |

## Left out

- Instruction building (`virtual_ix`), program-derived-address lookups (`find_pool_sol_reserves` and the like), `underlying_liquidity` and `accounts_len`: they only assemble foreign instruction values.
- Deserialisation internals (borsh, bincode): each is a partial parse function. Parse errors carry no address, as in the source.
- The bodies of `apply_fee`, `FeeEnum::pseudo_reverse`, `calc_pool_tokens_stake_withdrawal_fee` and `calc_lamports_withdraw_amount`: they are defined in other crates. No round trip or monotonicity of the reverse fee is claimed, because nothing in the modelled code promises one.
- The constant address-to-label table (libs/spl_stake_pool/src/lib.rs:18-31): it holds no logic.
- Trivial getters (`program_id`, `stake_pool_label`, `main_state_key`, `staked_sol_mint`).
- Concurrency: every operation is a sequential update of one adapter.
- The bodies of `new_uninitialized`, `is_sol_deposit_capped`, `is_stake_deposit_capped` and `update_deposit_cap_state` are not modelled. The model assumes the following. The first derives the withdraw-authority and deposit-cap-guard addresses through abstract functions and defaults everything else. The cap tests are abstract predicates of (pool, guard address). The last parses the guard account and stores the result.
- The struct declaration in libs/spl_stake_pool/src/lib.rs:33-41 lacks fields that `stakedex_traits/base.rs` uses: the program id, the deposit-cap guard and state, and a `String` label. The model follows `base.rs`.
- The bodies of the Socean `update_stake_pool` and `update_validator_list` are not modelled. They are assumed to parse and then assign, like the SPL ones.
- Addresses are modelled by numbers, and the well-known addresses by distinct placeholders. The rent constants are 2,282,880 and 890,880 lamports, the values the SDK's common crate declares.
- The account records name the fields the modelled code reads. They also name the parsed shapes it stores or hands whole to abstract functions: `FeeEnum` and `Rational`, Socean's validator entries and `DepositCap`. The unstake.it pool keeps `incoming_stake` and the protocol-fee account keeps `destination`. Socean's pool keeps its validator-list address and the clock keeps its epoch. The SPL stake pool names the mint, validator list, reserve stake and last update epoch. It also keeps an opaque `rest` of bytes, which stands for the fees, totals and deposit authorities that only the abstract SPL functions read. No modelled function reads the fields of those parsed shapes; they only stand in for the parsed contents.

=== FILE: common.dfy ===
/**
 * Types and constants shared by every stake-pool adapter: 64-bit amounts,
 * addresses, the account snapshot a refresh reads, the two quote records and
 * the error taxonomy. Mirrors the role of the `stakedex_sdk_common` crate.
 */
module Common {

  /** Rust's `u64`. Arithmetic that can leave this range is written out explicitly. */
  const U64_LIMIT: int := 0x1_0000_0000_0000_0000
  type U64 = x: int | 0 <= x < U64_LIMIT

  /** Rust's `NonZeroU64`. */
  type NonZeroU64 = x: U64 | x > 0 witness 1

  /** `u64::saturating_sub`: the difference, or 0 when it would be negative. */
  function SaturatingSub(a: U64, b: U64): (r: U64)
    ensures r <= a
    ensures b <= a ==> r + b == a
    ensures b > a ==> r == 0
  {
    if b <= a then a - b else 0
  }

  /** `u64::checked_sub`: the difference, or None when it would be negative. */
  function CheckedSub(a: U64, b: U64): (r: Option<U64>)
    ensures r.Some? <==> b <= a
    ensures r.Some? ==> r.value + b == a
  {
    if b <= a then Some(a - b) else None
  }

  datatype Option<+T> = None | Some(value: T) {
    predicate IsFailure() { None? }
    function PropagateFailure<U>(): Option<U>
      requires None?
    {
      None
    }
    function Extract(): T
      requires Some?
    {
      value
    }
    /** `Option::ok_or`: the value, or the given error. */
    function ToResult<E>(error: E): (r: Result<T, E>)
      ensures r.Ok? <==> Some?
      ensures r.Ok? ==> r.value == value
      ensures r.Err? ==> r.error == error
    {
      match this
      case Some(v) => Ok(v)
      case None => Err(error)
    }
  }

  datatype Result<+T, +E> = Ok(value: T) | Err(error: E) {
    predicate IsFailure() { Err? }
    function PropagateFailure<U>(): Result<U, E>
      requires Err?
    {
      Err(error)
    }
    function Extract(): T
      requires Ok?
    {
      value
    }
  }

  /**
   * A 32-byte account address. Only the identity of an address matters to the
   * quote and refresh logic, so it is modelled by a number; `Pubkey(0)` is the
   * all-zero `Pubkey::default()`.
   */
  datatype Pubkey = Pubkey(id: nat)

  const DEFAULT_PUBKEY: Pubkey := Pubkey(0)

  /**
   * Well-known addresses declared by the SDK. Their 32-byte values are not
   * modelled: they are fixed, distinct and different from the default address.
   */
  const UNSTAKE_IT_POOL_ID: Pubkey := Pubkey(1)
  const UNSTAKE_IT_FEE_ID: Pubkey := Pubkey(2)
  const UNSTAKE_IT_SOL_RESERVES_ID: Pubkey := Pubkey(3)
  const UNSTAKE_IT_PROTOCOL_FEE_ID: Pubkey := Pubkey(4)
  const SOCEAN_STAKE_POOL_ID: Pubkey := Pubkey(5)
  const CLOCK_SYSVAR_ID: Pubkey := Pubkey(6)

  /** Minimum balance of a 200-byte stake account (lamports). */
  const STAKE_ACCOUNT_RENT_EXEMPT_LAMPORTS: U64 := 2_282_880
  /** Minimum balance of an account holding no data (lamports). */
  const ZERO_DATA_ACC_RENT_EXEMPT_LAMPORTS: U64 := 890_880

  type Bytes = seq<bv8>

  /** An on-chain account as supplied by the fetch layer: balance, data and owning program. */
  datatype Account = Account(lamports: U64, data: Bytes, owner: Pubkey)

  /** The snapshot a refresh reads: address to account. */
  type AccountMap = map<Pubkey, Account>

  /** Errors of the SPL stake-pool program that the withdraw quote reports. */
  datatype StakePoolError = InvalidState | CalculationFailure | WithdrawalTooSmall | WrongStakeStake

  datatype Error =
    | AccountMissing(key: Pubkey)     // the snapshot has no account at `key`
    | Deserialize                     // account data did not parse as the expected type
    | NotEnoughLiquidity              // reserves cannot fund the slumdog instant unstake
    | PseudoReverseMathError          // the reverse fee computation failed
    | Program(e: StakePoolError)       // an error of the stake-pool program

  /** Value of a `&mut self` refresh: the state it leaves behind and what it returned. */
  datatype Updated<S> = Updated(state: S, result: Result<(), Error>)

  /** A stake account about to be withdrawn from a pool, valued in lamports. */
  datatype WithdrawStakeQuote = WithdrawStakeQuote(
    lamportsOut: U64,
    lamportsStaked: U64,
    feeAmount: U64,
    voter: Pubkey)

  /** Pool tokens (or lamports) obtained by depositing a stake account. */
  datatype DepositStakeQuote = DepositStakeQuote(tokensOut: U64, feeAmount: U64, voter: Pubkey)

  /** `DepositStakeQuote::default()`: the "no quote" sentinel. */
  const DEFAULT_DEPOSIT_STAKE_QUOTE: DepositStakeQuote := DepositStakeQuote(0, 0, DEFAULT_PUBKEY)

  /** Every address in `keys` has an account in `m`. */
  predicate Covers(m: AccountMap, keys: seq<Pubkey>) {
    forall i :: 0 <= i < |keys| ==> keys[i] in m
  }

  /** Lookup of an address in a snapshot, as `AccountMap::get`. */
  function Get(m: AccountMap, key: Pubkey): (r: Option<Account>)
    ensures r.Some? <==> key in m
    ensures r.Some? ==> r.value == m[key]
  {
    if key in m then Some(m[key]) else None
  }
}

=== FILE: prefund.dfy ===
/**
 * Prefund flash-loan sizing. A router transaction borrows a fixed amount of SOL
 * to make two fresh stake accounts rent-exempt, and repays it by instantly
 * unstaking one of them (the "slumdog" stake) through unstake.it. The
 * parameters needed to size that stake are rebuilt from four accounts.
 */
module Prefund {
  import opened Common
  import opened UnstakeIt

  /** The flash loan: rent for the slumdog stake and for the withdrawn stake. */
  const PREFUND_FLASH_LOAN_LAMPORTS: U64 := 2 * STAKE_ACCOUNT_RENT_EXEMPT_LAMPORTS

  /** The unstake.it state needed to quote the slumdog instant unstake. */
  datatype PrefundRepayParams = PrefundRepayParams(
    fee: FeeEnum,
    incomingStake: U64,
    solReservesLamports: U64,
    protocolFeeDest: Pubkey)

  /** The four accounts a refresh of the parameters must be given. */
  const ACCOUNTS_TO_UPDATE: seq<Pubkey> :=
    [UNSTAKE_IT_POOL_ID, UNSTAKE_IT_FEE_ID, UNSTAKE_IT_SOL_RESERVES_ID, UNSTAKE_IT_PROTOCOL_FEE_ID]

  /** The fee schedule, from the data of the fee account. */
  function ExtractFeeEnum(lib: UnstakeLib, m: AccountMap): (r: Result<FeeEnum, Error>)
    ensures UNSTAKE_IT_FEE_ID !in m ==> r == Err(AccountMissing(UNSTAKE_IT_FEE_ID))
    ensures UNSTAKE_IT_FEE_ID in m ==>
              match lib.parseFeeAccount(m[UNSTAKE_IT_FEE_ID].data)
              case Some(f) => r == Ok(f)
              case None => r == Err(Deserialize)
  {
    var acc :- Get(m, UNSTAKE_IT_FEE_ID).ToResult(AccountMissing(UNSTAKE_IT_FEE_ID));
    var fee :- lib.parseFeeAccount(acc.data).ToResult(Deserialize);
    Ok(fee)
  }

  /** The stake queued for unstaking, from the data of the pool account. */
  function ExtractIncomingStake(lib: UnstakeLib, m: AccountMap): (r: Result<U64, Error>)
    ensures UNSTAKE_IT_POOL_ID !in m ==> r == Err(AccountMissing(UNSTAKE_IT_POOL_ID))
    ensures UNSTAKE_IT_POOL_ID in m ==>
              match lib.parsePoolAccount(m[UNSTAKE_IT_POOL_ID].data)
              case Some(p) => r == Ok(p.incomingStake)
              case None => r == Err(Deserialize)
  {
    var acc :- Get(m, UNSTAKE_IT_POOL_ID).ToResult(AccountMissing(UNSTAKE_IT_POOL_ID));
    var pool :- lib.parsePoolAccount(acc.data).ToResult(Deserialize);
    Ok(pool.incomingStake)
  }

  /** The reserves: the BALANCE of the SOL reserves account; its data is never read. */
  function ExtractSolReservesLamports(m: AccountMap): (r: Result<U64, Error>)
    ensures r.Ok? <==> UNSTAKE_IT_SOL_RESERVES_ID in m
    ensures r.Ok? ==> r.value == m[UNSTAKE_IT_SOL_RESERVES_ID].lamports
    ensures r.Err? ==> r.error == AccountMissing(UNSTAKE_IT_SOL_RESERVES_ID)
  {
    var acc :- Get(m, UNSTAKE_IT_SOL_RESERVES_ID).ToResult(AccountMissing(UNSTAKE_IT_SOL_RESERVES_ID));
    Ok(acc.lamports)
  }

  /** Where protocol fees go, from the data of the protocol-fee account. */
  function ExtractProtocolFeeDest(lib: UnstakeLib, m: AccountMap): (r: Result<Pubkey, Error>)
    ensures UNSTAKE_IT_PROTOCOL_FEE_ID !in m ==> r == Err(AccountMissing(UNSTAKE_IT_PROTOCOL_FEE_ID))
    ensures UNSTAKE_IT_PROTOCOL_FEE_ID in m ==>
              match lib.parseProtocolFeeAccount(m[UNSTAKE_IT_PROTOCOL_FEE_ID].data)
              case Some(p) => r == Ok(p.destination)
              case None => r == Err(Deserialize)
  {
    var acc :- Get(m, UNSTAKE_IT_PROTOCOL_FEE_ID).ToResult(AccountMissing(UNSTAKE_IT_PROTOCOL_FEE_ID));
    var pf :- lib.parseProtocolFeeAccount(acc.data).ToResult(Deserialize);
    Ok(pf.destination)
  }

  /**
   * All four accounts are present and the three whose data is read parse. This
   * is the reference condition under which the parameters can be built.
   */
  predicate Complete(lib: UnstakeLib, m: AccountMap) {
    && UNSTAKE_IT_FEE_ID in m && lib.parseFeeAccount(m[UNSTAKE_IT_FEE_ID].data).Some?
    && UNSTAKE_IT_POOL_ID in m && lib.parsePoolAccount(m[UNSTAKE_IT_POOL_ID].data).Some?
    && UNSTAKE_IT_SOL_RESERVES_ID in m
    && UNSTAKE_IT_PROTOCOL_FEE_ID in m && lib.parseProtocolFeeAccount(m[UNSTAKE_IT_PROTOCOL_FEE_ID].data).Some?
  }

  /** Builds the parameters from a snapshot, failing at the first account that is missing or malformed. */
  function TryInit(lib: UnstakeLib, m: AccountMap): (r: Result<PrefundRepayParams, Error>)
    ensures r.Ok? <==> Complete(lib, m)
    ensures r.Ok? ==>
              && Some(r.value.fee) == lib.parseFeeAccount(m[UNSTAKE_IT_FEE_ID].data)
              && r.value.incomingStake == lib.parsePoolAccount(m[UNSTAKE_IT_POOL_ID].data).value.incomingStake
              && r.value.solReservesLamports == m[UNSTAKE_IT_SOL_RESERVES_ID].lamports
              && r.value.protocolFeeDest == lib.parseProtocolFeeAccount(m[UNSTAKE_IT_PROTOCOL_FEE_ID].data).value.destination
    // the fee account is looked at first
    ensures UNSTAKE_IT_FEE_ID !in m ==> r == Err(AccountMissing(UNSTAKE_IT_FEE_ID))
    // a failure reports the first extraction that fails, in the order fee, pool, reserves, protocol fee
    ensures r.Err? ==>
              r.error == (if ExtractFeeEnum(lib, m).Err? then ExtractFeeEnum(lib, m).error
                          else if ExtractIncomingStake(lib, m).Err? then ExtractIncomingStake(lib, m).error
                          else if ExtractSolReservesLamports(m).Err? then ExtractSolReservesLamports(m).error
                          else ExtractProtocolFeeDest(lib, m).error)
  {
    var fee :- ExtractFeeEnum(lib, m);
    var incomingStake :- ExtractIncomingStake(lib, m);
    var solReservesLamports :- ExtractSolReservesLamports(m);
    var protocolFeeDest :- ExtractProtocolFeeDest(lib, m);
    Ok(PrefundRepayParams(fee, incomingStake, solReservesLamports, protocolFeeDest))
  }

  /**
   * Refreshes the parameters in place. Every extraction happens before the
   * assignment, so a failed refresh leaves the parameters as they were and a
   * successful one replaces them wholesale.
   */
  function Update(lib: UnstakeLib, self: PrefundRepayParams, m: AccountMap): (r: Updated<PrefundRepayParams>)
    ensures r.result.Ok? <==> Complete(lib, m)
    // a failed refresh leaves the parameters as they were and reports what initialisation would
    ensures r.result.Err? ==> r.state == self && TryInit(lib, m) == Err(r.result.error)
    // a successful one leaves exactly what initialisation from the same snapshot builds
    ensures r.result.Ok? ==> TryInit(lib, m) == Ok(r.state)
  {
    var fee := ExtractFeeEnum(lib, m);
    if fee.Err? then Updated(self, Err(fee.error)) else
    var incomingStake := ExtractIncomingStake(lib, m);
    if incomingStake.Err? then Updated(self, Err(incomingStake.error)) else
    var solReservesLamports := ExtractSolReservesLamports(m);
    if solReservesLamports.Err? then Updated(self, Err(solReservesLamports.error)) else
    var protocolFeeDest := ExtractProtocolFeeDest(lib, m);
    if protocolFeeDest.Err? then Updated(self, Err(protocolFeeDest.error)) else
    Updated(PrefundRepayParams(fee.value, incomingStake.value, solReservesLamports.value, protocolFeeDest.value), Ok(()))
  }

  /** Two snapshots that agree on the four tracked addresses. */
  predicate AgreeOnTracked(m1: AccountMap, m2: AccountMap) {
    forall i :: 0 <= i < |ACCOUNTS_TO_UPDATE| ==> Get(m1, ACCOUNTS_TO_UPDATE[i]) == Get(m2, ACCOUNTS_TO_UPDATE[i])
  }

  /**
   * The tracked addresses are exactly what initialisation reads: snapshots
   * that agree on them give the same outcome, and dropping any one of them
   * from a snapshot that works makes it fail.
   */
  lemma TrackedAccountsAreExactlyTheReads(lib: UnstakeLib, m1: AccountMap, m2: AccountMap)
    ensures AgreeOnTracked(m1, m2) ==> TryInit(lib, m1) == TryInit(lib, m2)
    ensures TryInit(lib, m1).Ok? ==>
              forall i :: 0 <= i < |ACCOUNTS_TO_UPDATE| ==> TryInit(lib, m1 - {ACCOUNTS_TO_UPDATE[i]}).Err?
  {
    if AgreeOnTracked(m1, m2) {
      assert Get(m1, ACCOUNTS_TO_UPDATE[0]) == Get(m2, ACCOUNTS_TO_UPDATE[0]);
      assert Get(m1, ACCOUNTS_TO_UPDATE[1]) == Get(m2, ACCOUNTS_TO_UPDATE[1]);
      assert Get(m1, ACCOUNTS_TO_UPDATE[2]) == Get(m2, ACCOUNTS_TO_UPDATE[2]);
      assert Get(m1, ACCOUNTS_TO_UPDATE[3]) == Get(m2, ACCOUNTS_TO_UPDATE[3]);
    }
    forall i | 0 <= i < |ACCOUNTS_TO_UPDATE|
      ensures TryInit(lib, m1 - {ACCOUNTS_TO_UPDATE[i]}).Err?
    {
      assert ACCOUNTS_TO_UPDATE[i] !in m1 - {ACCOUNTS_TO_UPDATE[i]};
    }
  }

  /**
   * The total lamports, rent included, the slumdog stake must hold so that
   * instantly unstaking it pays out exactly the flash loan.
   */
  function SlumdogTargetLamports(lib: UnstakeLib, self: PrefundRepayParams): (r: Result<U64, Error>)
    // liquidity check first: the reserves must cover the loan plus an empty account's rent
    ensures r == Err(NotEnoughLiquidity)
            <==> self.solReservesLamports < 2 * STAKE_ACCOUNT_RENT_EXEMPT_LAMPORTS + ZERO_DATA_ACC_RENT_EXEMPT_LAMPORTS
    // then the reverse fee, solved for a payout of exactly the loan
    ensures self.solReservesLamports >= 2 * STAKE_ACCOUNT_RENT_EXEMPT_LAMPORTS + ZERO_DATA_ACC_RENT_EXEMPT_LAMPORTS ==>
              var gross := lib.pseudoReverse(self.fee, PoolBalance(self.incomingStake, self.solReservesLamports), PREFUND_FLASH_LOAN_LAMPORTS);
              (gross.Some? ==> r == Ok(gross.value)) && (gross.None? ==> r == Err(PseudoReverseMathError))
  {
    var lamportsRequired := PREFUND_FLASH_LOAN_LAMPORTS;
    if self.solReservesLamports < lamportsRequired + ZERO_DATA_ACC_RENT_EXEMPT_LAMPORTS then
      Err(NotEnoughLiquidity)
    else
      lib.pseudoReverse(self.fee, PoolBalance(self.incomingStake, self.solReservesLamports), lamportsRequired)
        .ToResult(PseudoReverseMathError)
  }

  /**
   * The liquidity boundary: reserves of exactly the loan plus an empty
   * account's rent reach the reverse fee; one lamport less does not.
   */
  lemma SlumdogLiquidityBoundary(lib: UnstakeLib, self: PrefundRepayParams)
    ensures self.solReservesLamports == PREFUND_FLASH_LOAN_LAMPORTS + ZERO_DATA_ACC_RENT_EXEMPT_LAMPORTS ==>
              SlumdogTargetLamports(lib, self) != Err(NotEnoughLiquidity)
    ensures self.solReservesLamports == PREFUND_FLASH_LOAN_LAMPORTS + ZERO_DATA_ACC_RENT_EXEMPT_LAMPORTS - 1 ==>
              SlumdogTargetLamports(lib, self) == Err(NotEnoughLiquidity)
  {
  }

  /**
   * The lamports to split off the user's bridge stake into the slumdog stake:
   * the slumdog target less the rent the slumdog stake already carries,
   * saturating at zero.
   */
  function PrefundSplitLamports(lib: UnstakeLib, self: PrefundRepayParams): (r: Result<U64, Error>)
    ensures SlumdogTargetLamports(lib, self).Err? ==> r == Err(SlumdogTargetLamports(lib, self).error)
    ensures SlumdogTargetLamports(lib, self).Ok? ==>
              var target := SlumdogTargetLamports(lib, self).value;
              && r.Ok?
              && r.value <= target
              && (target >= STAKE_ACCOUNT_RENT_EXEMPT_LAMPORTS ==> r.value + STAKE_ACCOUNT_RENT_EXEMPT_LAMPORTS == target)
              && (target < STAKE_ACCOUNT_RENT_EXEMPT_LAMPORTS ==> r.value == 0)
  {
    var slumdogTargetLamports :- SlumdogTargetLamports(lib, self);
    Ok(SaturatingSub(slumdogTargetLamports, STAKE_ACCOUNT_RENT_EXEMPT_LAMPORTS))
  }
}

=== FILE: socean_stake_pool.dfy ===
/**
 * The Socean stake-pool adapter: initialisation from its main account, the
 * three addresses it asks to be refreshed with, and the refresh, which also
 * reads the current epoch from the clock sysvar.
 *
 * As in the SPL adapter, each piece of state is stored as soon as it parses;
 * only a failure on the main account leaves the adapter unchanged.
 */
module SoceanStakePool {
  import opened Common

  /** Socean's main account, reduced to the one field the adapter reads: its validator list's address. */
  datatype StakePool = StakePool(validatorList: Pubkey)

  const DEFAULT_STAKE_POOL: StakePool := StakePool(DEFAULT_PUBKEY)

  datatype ValidatorStakeInfo = ValidatorStakeInfo(voteAccountAddress: Pubkey, activeStakeLamports: U64)

  datatype ValidatorList = ValidatorList(validators: seq<ValidatorStakeInfo>)

  /** The clock sysvar, reduced to the one field the adapter reads. */
  datatype Clock = Clock(epoch: U64)

  /** Deserialisation of the main account, the validator list and the clock, defined elsewhere. */
  datatype SoceanLib = SoceanLib(
    parseStakePool: Bytes -> Option<StakePool>,
    parseValidatorList: Bytes -> Option<ValidatorList>,
    parseClock: Bytes -> Option<Clock>)

  datatype SoceanStakePoolStakedex = SoceanStakePoolStakedex(
    stakePool: StakePool,
    validatorList: ValidatorList,
    currEpoch: U64)

  /** `SoceanStakePoolStakedex::default()`. */
  const DEFAULT_STAKEDEX: SoceanStakePoolStakedex := SoceanStakePoolStakedex(DEFAULT_STAKE_POOL, ValidatorList([]), 0)

  /** Initialisation: default state with the main account parsed into it, nothing else. */
  function FromKeyedAccount(lib: SoceanLib, account: Account): (r: Result<SoceanStakePoolStakedex, Error>)
    ensures r.Ok? <==> lib.parseStakePool(account.data).Some?
    ensures r.Err? ==> r.error == Deserialize
    ensures r.Ok? ==> r.value == DEFAULT_STAKEDEX.(stakePool := lib.parseStakePool(account.data).value)
  {
    var pool :- lib.parseStakePool(account.data).ToResult(Deserialize);
    Ok(DEFAULT_STAKEDEX.(stakePool := pool))
  }

  /** The main account, the validator list the current pool names, and the clock. */
  function GetAccountsToUpdate(self: SoceanStakePoolStakedex): (r: seq<Pubkey>)
    ensures |r| == 3
    ensures r[0] == SOCEAN_STAKE_POOL_ID && r[1] == self.stakePool.validatorList && r[2] == CLOCK_SYSVAR_ID
  {
    [SOCEAN_STAKE_POOL_ID, self.stakePool.validatorList, CLOCK_SYSVAR_ID]
  }

  /**
   * Refresh: the main account, then the validator list named by the NEWLY
   * parsed pool, then the clock, whose epoch becomes the current epoch.
   */
  function Update(lib: SoceanLib, self: SoceanStakePoolStakedex, m: AccountMap): (r: Updated<SoceanStakePoolStakedex>)
    // a failure on the main account changes nothing
    ensures SOCEAN_STAKE_POOL_ID !in m ==> r == Updated(self, Err(AccountMissing(SOCEAN_STAKE_POOL_ID)))
    ensures SOCEAN_STAKE_POOL_ID in m && lib.parseStakePool(m[SOCEAN_STAKE_POOL_ID].data).None?
            ==> r == Updated(self, Err(Deserialize))
    // once the main account parses, the pool is replaced whatever happens next
    ensures SOCEAN_STAKE_POOL_ID in m && lib.parseStakePool(m[SOCEAN_STAKE_POOL_ID].data).Some? ==>
              var pool := lib.parseStakePool(m[SOCEAN_STAKE_POOL_ID].data).value;
              && r.state.stakePool == pool
              && (pool.validatorList !in m ==>
                    r == Updated(self.(stakePool := pool), Err(AccountMissing(pool.validatorList))))
              && (pool.validatorList in m && lib.parseValidatorList(m[pool.validatorList].data).None? ==>
                    r == Updated(self.(stakePool := pool), Err(Deserialize)))
    // once the list parses too, it is replaced and only the clock remains
    ensures SOCEAN_STAKE_POOL_ID in m && lib.parseStakePool(m[SOCEAN_STAKE_POOL_ID].data).Some? ==>
              var pool := lib.parseStakePool(m[SOCEAN_STAKE_POOL_ID].data).value;
              pool.validatorList in m && lib.parseValidatorList(m[pool.validatorList].data).Some? ==>
                var s2 := self.(stakePool := pool, validatorList := lib.parseValidatorList(m[pool.validatorList].data).value);
                && (CLOCK_SYSVAR_ID !in m ==> r == Updated(s2, Err(AccountMissing(CLOCK_SYSVAR_ID))))
                && (CLOCK_SYSVAR_ID in m && lib.parseClock(m[CLOCK_SYSVAR_ID].data).None? ==>
                      r == Updated(s2, Err(Deserialize)))
                && (CLOCK_SYSVAR_ID in m && lib.parseClock(m[CLOCK_SYSVAR_ID].data).Some? ==>
                      r == Updated(s2.(currEpoch := lib.parseClock(m[CLOCK_SYSVAR_ID].data).value.epoch), Ok(())))
    // the epoch moves only on success, and then to the clock's
    ensures r.result.Err? ==> r.state.currEpoch == self.currEpoch
    ensures r.result.Ok? <==>
              && SOCEAN_STAKE_POOL_ID in m
              && lib.parseStakePool(m[SOCEAN_STAKE_POOL_ID].data).Some?
              && r.state.stakePool.validatorList in m
              && lib.parseValidatorList(m[r.state.stakePool.validatorList].data).Some?
              && CLOCK_SYSVAR_ID in m
              && lib.parseClock(m[CLOCK_SYSVAR_ID].data).Some?
    ensures r.result.Ok? ==>
              && r.state.validatorList == lib.parseValidatorList(m[r.state.stakePool.validatorList].data).value
              && r.state.currEpoch == lib.parseClock(m[CLOCK_SYSVAR_ID].data).value.epoch
              && Covers(m, GetAccountsToUpdate(r.state))
  {
    match Get(m, SOCEAN_STAKE_POOL_ID)
    case None => Updated(self, Err(AccountMissing(SOCEAN_STAKE_POOL_ID)))
    case Some(stakePoolAcc) =>
      match lib.parseStakePool(stakePoolAcc.data)
      case None => Updated(self, Err(Deserialize))
      case Some(pool) =>
        var s1 := self.(stakePool := pool);
        match Get(m, s1.stakePool.validatorList)
        case None => Updated(s1, Err(AccountMissing(s1.stakePool.validatorList)))
        case Some(validatorListAcc) =>
          match lib.parseValidatorList(validatorListAcc.data)
          case None => Updated(s1, Err(Deserialize))
          case Some(list) =>
            var s2 := s1.(validatorList := list);
            match Get(m, CLOCK_SYSVAR_ID)
            case None => Updated(s2, Err(AccountMissing(CLOCK_SYSVAR_ID)))
            case Some(clockAcc) =>
              match lib.parseClock(clockAcc.data)
              case None => Updated(s2, Err(Deserialize))
              case Some(clock) => Updated(s2.(currEpoch := clock.epoch), Ok(()))
  }

  /**
   * A missing clock is reported only after the pool and validator list were
   * replaced: the adapter is left with the new pool and list but the old epoch.
   */
  lemma MissingClockLeavesPartialRefresh(lib: SoceanLib, self: SoceanStakePoolStakedex, m: AccountMap)
    requires CLOCK_SYSVAR_ID !in m
    requires SOCEAN_STAKE_POOL_ID in m && lib.parseStakePool(m[SOCEAN_STAKE_POOL_ID].data).Some?
    requires var pool := lib.parseStakePool(m[SOCEAN_STAKE_POOL_ID].data).value;
             pool.validatorList in m && lib.parseValidatorList(m[pool.validatorList].data).Some?
    ensures var pool := lib.parseStakePool(m[SOCEAN_STAKE_POOL_ID].data).value;
            Update(lib, self, m) == Updated(
              SoceanStakePoolStakedex(pool, lib.parseValidatorList(m[pool.validatorList].data).value, self.currEpoch),
              Err(AccountMissing(CLOCK_SYSVAR_ID)))
  {
  }

  /**
   * A failed refresh need not leave the adapter as it was: from any state, a
   * snapshot holding a new main account but no clock is one that fails with
   * the adapter changed.
   */
  lemma FailedRefreshCanChangeState(lib: SoceanLib, self: SoceanStakePoolStakedex, data: Bytes, pool: StakePool)
    returns (m: AccountMap)
    requires lib.parseStakePool(data) == Some(pool)
    requires pool != self.stakePool
    ensures Update(lib, self, m).result.Err?
    ensures Update(lib, self, m).state != self
  {
    m := map[SOCEAN_STAKE_POOL_ID := Account(0, data, DEFAULT_PUBKEY)];
    assert Update(lib, self, m).state.stakePool == pool;
  }
}

=== FILE: spl_stake_pool.dfy ===
/**
 * The SPL stake-pool adapter's state and its withdraw-stake quote: how many
 * lamports of active stake a validator's stake account releases for a given
 * amount of pool tokens.
 */
module SplStakePool {
  import opened Common

  /**
   * The stake pool's main account. The fields the adapter reads itself are
   * named; `rest` stands for everything else in the account (fees, token and
   * lamport totals, deposit authorities), which only the functions of `SplLib`
   * read.
   */
  datatype StakePool = StakePool(
    poolMint: Pubkey,
    validatorList: Pubkey,
    reserveStake: Pubkey,
    lastUpdateEpoch: U64,
    rest: Bytes)

  const DEFAULT_STAKE_POOL: StakePool := StakePool(DEFAULT_PUBKEY, DEFAULT_PUBKEY, DEFAULT_PUBKEY, 0, [])

  datatype StakeStatus = Active | DeactivatingTransient | ReadyForRemoval | DeactivatingValidator | DeactivatingAll

  /** One validator's entry in the pool's validator list. */
  datatype ValidatorStakeInfo = ValidatorStakeInfo(
    voteAccountAddress: Pubkey,
    activeStakeLamports: U64,
    status: StakeStatus)

  datatype ValidatorList = ValidatorList(validators: seq<ValidatorStakeInfo>)

  /** The state of the deposit-cap guard program's account for this pool. */
  datatype DepositCap = DepositCap(maxDepositLamports: U64)

  /**
   * Code this model calls but does not define: deserialisation of the three
   * account kinds, the SPL program's withdrawal fee and exchange rate, the
   * address derivations, base58 display of an address, and the two
   * deposit-cap tests (pool, guard address).
   */
  datatype SplLib = SplLib(
    parseStakePool: Bytes -> Option<StakePool>,
    parseValidatorList: Bytes -> Option<ValidatorList>,
    parseDepositCap: Bytes -> Option<DepositCap>,
    calcPoolTokensStakeWithdrawalFee: (StakePool, U64) -> Option<U64>,
    calcLamportsWithdrawAmount: (StakePool, U64) -> Option<U64>,
    findWithdrawAuthority: (Pubkey, Pubkey) -> Pubkey,
    findDepositCapGuard: (Pubkey, Pubkey) -> Pubkey,
    displayPubkey: Pubkey -> string,
    isSolDepositCapped: (StakePool, Pubkey) -> bool,
    isStakeDepositCapped: (StakePool, Pubkey) -> bool)

  datatype SplStakePoolStakedex = SplStakePoolStakedex(
    stakePoolProgram: Pubkey,
    stakePoolAddr: Pubkey,
    withdrawAuthorityAddr: Pubkey,
    depositCapGuardAddr: Pubkey,
    stakePoolLabel: string,
    stakePool: StakePool,
    validatorList: ValidatorList,
    depositCap: Option<DepositCap>,
    currEpoch: U64)

  /** Replaces the stake pool with the parsed account data; on a parse failure nothing changes. */
  function UpdateStakePool(lib: SplLib, self: SplStakePoolStakedex, data: Bytes): (r: Updated<SplStakePoolStakedex>)
    ensures lib.parseStakePool(data).None? ==> r == Updated(self, Err(Deserialize))
    ensures lib.parseStakePool(data).Some? ==>
              r.result.Ok? && r.state == self.(stakePool := lib.parseStakePool(data).value)
  {
    match lib.parseStakePool(data)
    case None => Updated(self, Err(Deserialize))
    case Some(pool) => Updated(self.(stakePool := pool), Ok(()))
  }

  /** Replaces the validator list with the parsed account data; on a parse failure nothing changes. */
  function UpdateValidatorList(lib: SplLib, self: SplStakePoolStakedex, data: Bytes): (r: Updated<SplStakePoolStakedex>)
    ensures lib.parseValidatorList(data).None? ==> r == Updated(self, Err(Deserialize))
    ensures lib.parseValidatorList(data).Some? ==>
              r.result.Ok? && r.state == self.(validatorList := lib.parseValidatorList(data).value)
  {
    match lib.parseValidatorList(data)
    case None => Updated(self, Err(Deserialize))
    case Some(list) => Updated(self.(validatorList := list), Ok(()))
  }

  /** The pool's last update happened in the current epoch or later. */
  function IsUpdatedThisEpoch(self: SplStakePoolStakedex): (r: bool)
    ensures r ==> self.currEpoch <= self.stakePool.lastUpdateEpoch
    ensures !r ==> self.stakePool.lastUpdateEpoch < self.currEpoch
  {
    self.stakePool.lastUpdateEpoch >= self.currEpoch
  }

  /** The pool tokens burnt after the withdrawal fee, if the fee is computable and affordable. */
  function PoolTokensBurnt(lib: SplLib, pool: StakePool, poolTokens: U64): Option<U64> {
    match lib.calcPoolTokensStakeWithdrawalFee(pool, poolTokens)
    case None => None
    case Some(fee) => CheckedSub(poolTokens, fee)
  }

  /** The lamports a withdrawal of `poolTokens` releases, if every step is computable. */
  function WithdrawLamports(lib: SplLib, pool: StakePool, poolTokens: U64): Option<U64> {
    match PoolTokensBurnt(lib, pool, poolTokens)
    case None => None
    case Some(burnt) => lib.calcLamportsWithdrawAmount(pool, burnt)
  }

  /**
   * A well-formed withdraw-stake quote from validator entry `v` for a fee of
   * `fee` pool tokens: it releases no more than the validator's active stake,
   * keeps a rent-exempt stake account, and names the validator's vote account.
   */
  predicate ValidWithdrawQuote(q: WithdrawStakeQuote, v: ValidatorStakeInfo, fee: U64) {
    && 0 < q.lamportsOut <= v.activeStakeLamports
    && q.lamportsStaked + STAKE_ACCOUNT_RENT_EXEMPT_LAMPORTS == q.lamportsOut
    && q.feeAmount == fee
    && q.voter == v.voteAccountAddress
  }

  /**
   * Quote for withdrawing `withdrawAmount` pool tokens as a stake account split
   * off validator `validatorIndex`. Only active validators are quoted. The
   * fee, burnt-token, exchange-rate and zero-withdrawal checks follow the SPL
   * program. The active-stake ceiling and the rent subtraction come last.
   * `InvalidState` and `CalculationFailure` each answer more than one check.
   */
  function GetQuoteForValidatorCopied(lib: SplLib, self: SplStakePoolStakedex, validatorIndex: nat, withdrawAmount: U64)
    : (r: Result<WithdrawStakeQuote, StakePoolError>)
    requires validatorIndex < |self.validatorList.validators|
    // only active validators, before any fee arithmetic
    ensures self.validatorList.validators[validatorIndex].status != Active ==> r == Err(InvalidState)
    // an uncomputable or unaffordable fee
    ensures self.validatorList.validators[validatorIndex].status == Active ==>
              var fee := lib.calcPoolTokensStakeWithdrawalFee(self.stakePool, withdrawAmount);
              (fee.None? || fee.value > withdrawAmount) ==> r == Err(CalculationFailure)
    // the fee is affordable but the exchange rate cannot convert the burnt tokens
    ensures self.validatorList.validators[validatorIndex].status == Active
            && PoolTokensBurnt(lib, self.stakePool, withdrawAmount).Some?
            && WithdrawLamports(lib, self.stakePool, withdrawAmount).None?
            ==> r == Err(CalculationFailure)
    // a withdrawal worth nothing, checked before the active-stake ceiling
    ensures self.validatorList.validators[validatorIndex].status == Active
            && WithdrawLamports(lib, self.stakePool, withdrawAmount) == Some(0)
            ==> r == Err(WithdrawalTooSmall)
    // more than the validator's active stake
    ensures self.validatorList.validators[validatorIndex].status == Active
            && WithdrawLamports(lib, self.stakePool, withdrawAmount).Some?
            && WithdrawLamports(lib, self.stakePool, withdrawAmount).value > self.validatorList.validators[validatorIndex].activeStakeLamports
            ==> r == Err(InvalidState)
    // the success case, exactly
    ensures r.Ok? <==>
              && self.validatorList.validators[validatorIndex].status == Active
              && WithdrawLamports(lib, self.stakePool, withdrawAmount).Some?
              && STAKE_ACCOUNT_RENT_EXEMPT_LAMPORTS <= WithdrawLamports(lib, self.stakePool, withdrawAmount).value
                   <= self.validatorList.validators[validatorIndex].activeStakeLamports
    ensures r.Ok? ==>
              && r.value.lamportsOut == WithdrawLamports(lib, self.stakePool, withdrawAmount).value
              && ValidWithdrawQuote(r.value, self.validatorList.validators[validatorIndex],
                                    lib.calcPoolTokensStakeWithdrawalFee(self.stakePool, withdrawAmount).value)
  {
    var validatorListEntry := self.validatorList.validators[validatorIndex];
    if validatorListEntry.status != Active then Err(InvalidState) else
    var stakePool := self.stakePool;
    var poolTokens := withdrawAmount;
    var poolTokensFee :- lib.calcPoolTokensStakeWithdrawalFee(stakePool, poolTokens).ToResult(CalculationFailure);
    var poolTokensBurnt :- CheckedSub(poolTokens, poolTokensFee).ToResult(CalculationFailure);
    var withdrawLamports :- lib.calcLamportsWithdrawAmount(stakePool, poolTokensBurnt).ToResult(CalculationFailure);
    if withdrawLamports == 0 then Err(WithdrawalTooSmall)
    else if withdrawLamports > validatorListEntry.activeStakeLamports then Err(InvalidState)
    else
      var lamportsStaked :- CheckedSub(withdrawLamports, STAKE_ACCOUNT_RENT_EXEMPT_LAMPORTS).ToResult(CalculationFailure);
      Ok(WithdrawStakeQuote(withdrawLamports, lamportsStaked, poolTokensFee, validatorListEntry.voteAccountAddress))
  }

  /**
   * A withdrawal that is computable, nonzero and within the active stake but
   * below a stake account's rent-exempt minimum is a calculation failure.
   */
  lemma WithdrawBelowRentIsCalculationFailure(lib: SplLib, self: SplStakePoolStakedex, validatorIndex: nat, withdrawAmount: U64)
    requires validatorIndex < |self.validatorList.validators|
    requires self.validatorList.validators[validatorIndex].status == Active
    requires WithdrawLamports(lib, self.stakePool, withdrawAmount).Some?
    requires 0 < WithdrawLamports(lib, self.stakePool, withdrawAmount).value < STAKE_ACCOUNT_RENT_EXEMPT_LAMPORTS
    requires WithdrawLamports(lib, self.stakePool, withdrawAmount).value <= self.validatorList.validators[validatorIndex].activeStakeLamports
    ensures GetQuoteForValidatorCopied(lib, self, validatorIndex, withdrawAmount) == Err(CalculationFailure)
  {
  }
}

=== FILE: spl_stake_pool_base.dfy ===
/**
 * The SPL stake-pool adapter's life cycle: initialisation from the pool's main
 * account, the addresses it asks to be refreshed with, and the refresh itself,
 * for the plain adapter and for the variant that also tracks the pool's
 * reserve stake (to quote SOL withdrawals).
 *
 * The refresh assigns each piece of state as soon as it is parsed, so a later
 * missing or malformed account leaves the adapter partly refreshed; only a
 * failure on the main account leaves it unchanged.
 */
module SplStakePoolBase {
  import opened Common
  import opened SplStakePool

  /** The optional JSON `params` of a keyed account: only a string is used. */
  datatype Param = JsonString(s: string) | JsonOther

  /** The main account of a pool, with the router's optional parameters. */
  datatype KeyedAccount = KeyedAccount(key: Pubkey, account: Account, params: Option<Param>)

  /** The router's context: the epoch of its clock. */
  datatype AmmContext = AmmContext(clockEpoch: U64)

  const LABEL_SUFFIX: string := " stake pool"

  /**
   * The adapter before any account has been read: the program and pool
   * addresses, the two addresses derived from them, the given epoch, and
   * defaults for everything else.
   */
  function NewUninitialized(lib: SplLib, stakePoolProgram: Pubkey, stakePoolAddr: Pubkey, currEpoch: U64)
    : (r: SplStakePoolStakedex)
    ensures r.stakePoolProgram == stakePoolProgram && r.stakePoolAddr == stakePoolAddr
    ensures r.validatorList.validators == [] && r.depositCap == None
    ensures r.currEpoch == currEpoch
  {
    SplStakePoolStakedex(
      stakePoolProgram,
      stakePoolAddr,
      lib.findWithdrawAuthority(stakePoolProgram, stakePoolAddr),
      lib.findDepositCapGuard(stakePoolProgram, stakePoolAddr),
      "",
      DEFAULT_STAKE_POOL,
      ValidatorList([]),
      None,
      currEpoch)
  }

  /** `"<token name> stake pool"` when a string parameter is given, else `"<pool mint> stake pool"`. */
  function StakePoolLabel(lib: SplLib, params: Option<Param>, poolMint: Pubkey): (r: string)
    ensures |LABEL_SUFFIX| <= |r| && r[|r| - |LABEL_SUFFIX|..] == LABEL_SUFFIX
    ensures (params.Some? && params.value.JsonString?) ==> r[..|r| - |LABEL_SUFFIX|] == params.value.s
    ensures !(params.Some? && params.value.JsonString?) ==> r[..|r| - |LABEL_SUFFIX|] == lib.displayPubkey(poolMint)
  {
    var name := match params
      case Some(JsonString(s)) => s
      case _ => lib.displayPubkey(poolMint);
    name + LABEL_SUFFIX
  }

  /**
   * Initialisation from the pool's main account. Only the stake pool is
   * parsed; the validator list stays empty until the first refresh.
   */
  function FromKeyedAccount(lib: SplLib, keyed: KeyedAccount, ctx: AmmContext): (r: Result<SplStakePoolStakedex, Error>)
    ensures r.Ok? <==> lib.parseStakePool(keyed.account.data).Some?
    ensures r.Err? ==> r.error == Deserialize
    ensures r.Ok? ==>
              && r.value.stakePool == lib.parseStakePool(keyed.account.data).value
              && r.value.stakePoolAddr == keyed.key
              && r.value.stakePoolProgram == keyed.account.owner
              && r.value.currEpoch == ctx.clockEpoch
              && r.value.validatorList.validators == []
              && r.value.depositCap == None
              && r.value.stakePoolLabel == StakePoolLabel(lib, keyed.params, r.value.stakePool.poolMint)
  {
    var res := NewUninitialized(lib, keyed.account.owner, keyed.key, ctx.clockEpoch);
    var u := UpdateStakePool(lib, res, keyed.account.data);
    if u.result.Err? then Err(u.result.error)
    else Ok(u.state.(stakePoolLabel := StakePoolLabel(lib, keyed.params, u.state.stakePool.poolMint)))
  }

  /** Deposits into the pool go through the deposit-cap guard program. */
  predicate IsDepositCapped(lib: SplLib, self: SplStakePoolStakedex) {
    lib.isSolDepositCapped(self.stakePool, self.depositCapGuardAddr)
    || lib.isStakeDepositCapped(self.stakePool, self.depositCapGuardAddr)
  }

  /** The addresses the next refresh must be given. */
  function GetAccountsToUpdate(lib: SplLib, self: SplStakePoolStakedex): (r: seq<Pubkey>)
    ensures |r| >= 2 && r[0] == self.stakePoolAddr && r[1] == self.stakePool.validatorList
    ensures |r| == (if IsDepositCapped(lib, self) then 3 else 2)
    ensures IsDepositCapped(lib, self) ==> r[2] == self.depositCapGuardAddr
  {
    var res := [self.stakePoolAddr, self.stakePool.validatorList];
    if IsDepositCapped(lib, self) then res + [self.depositCapGuardAddr] else res
  }

  /**
   * The reference condition for a successful refresh: the main account is
   * present and parses, the validator list it names is present and parses,
   * and, if that pool is deposit-capped, the guard account is present and parses.
   */
  predicate RefreshComplete(lib: SplLib, self: SplStakePoolStakedex, m: AccountMap) {
    && self.stakePoolAddr in m
    && lib.parseStakePool(m[self.stakePoolAddr].data).Some?
    && var pool := lib.parseStakePool(m[self.stakePoolAddr].data).value;
    && pool.validatorList in m
    && lib.parseValidatorList(m[pool.validatorList].data).Some?
    && (IsDepositCapped(lib, self.(stakePool := pool)) ==>
          self.depositCapGuardAddr in m && lib.parseDepositCap(m[self.depositCapGuardAddr].data).Some?)
  }

  /** The fields a refresh never touches are those of `self`. */
  predicate KeepsIdentity(s: SplStakePoolStakedex, self: SplStakePoolStakedex) {
    s.(stakePool := self.stakePool, validatorList := self.validatorList, depositCap := self.depositCap) == self
  }

  /**
   * Refresh from a snapshot: the main account, then the validator list named
   * by the NEWLY parsed pool, then, if that pool is deposit-capped, the guard
   * account. Each piece is stored as soon as it parses.
   */
  function Update(lib: SplLib, self: SplStakePoolStakedex, m: AccountMap): (r: Updated<SplStakePoolStakedex>)
    ensures KeepsIdentity(r.state, self)
    // a failure on the main account changes nothing
    ensures self.stakePoolAddr !in m ==> r == Updated(self, Err(AccountMissing(self.stakePoolAddr)))
    ensures self.stakePoolAddr in m && lib.parseStakePool(m[self.stakePoolAddr].data).None?
            ==> r == Updated(self, Err(Deserialize))
    // once the main account parses, the pool is replaced whatever happens next
    ensures self.stakePoolAddr in m && lib.parseStakePool(m[self.stakePoolAddr].data).Some? ==>
              var pool := lib.parseStakePool(m[self.stakePoolAddr].data).value;
              && r.state.stakePool == pool
              && (pool.validatorList !in m ==>
                    r == Updated(self.(stakePool := pool), Err(AccountMissing(pool.validatorList))))
              && (!IsDepositCapped(lib, self.(stakePool := pool)) ==> r.state.depositCap == self.depositCap)
    // a malformed validator list: the new pool stays, the old list stays
    ensures self.stakePoolAddr in m && lib.parseStakePool(m[self.stakePoolAddr].data).Some? ==>
              var pool := lib.parseStakePool(m[self.stakePoolAddr].data).value;
              pool.validatorList in m && lib.parseValidatorList(m[pool.validatorList].data).None? ==>
                r == Updated(self.(stakePool := pool), Err(Deserialize))
    // once the list parses too, the guard decides what else happens
    ensures self.stakePoolAddr in m && lib.parseStakePool(m[self.stakePoolAddr].data).Some? ==>
              var pool := lib.parseStakePool(m[self.stakePoolAddr].data).value;
              pool.validatorList in m && lib.parseValidatorList(m[pool.validatorList].data).Some? ==>
                var s2 := self.(stakePool := pool, validatorList := lib.parseValidatorList(m[pool.validatorList].data).value);
                && (!IsDepositCapped(lib, s2) ==> r == Updated(s2, Ok(())))
                && (IsDepositCapped(lib, s2) && self.depositCapGuardAddr !in m ==>
                      r == Updated(s2, Err(AccountMissing(self.depositCapGuardAddr))))
                && (IsDepositCapped(lib, s2) && self.depositCapGuardAddr in m
                    && lib.parseDepositCap(m[self.depositCapGuardAddr].data).None? ==>
                      r == Updated(s2, Err(Deserialize)))
                && (IsDepositCapped(lib, s2) && self.depositCapGuardAddr in m
                    && lib.parseDepositCap(m[self.depositCapGuardAddr].data).Some? ==>
                      r == Updated(s2.(depositCap := lib.parseDepositCap(m[self.depositCapGuardAddr].data)), Ok(())))
    ensures r.result.Ok? <==> RefreshComplete(lib, self, m)
    ensures r.result.Ok? ==>
              && r.state.validatorList == lib.parseValidatorList(m[r.state.stakePool.validatorList].data).value
              && (IsDepositCapped(lib, r.state) ==>
                    r.state.depositCap == lib.parseDepositCap(m[self.depositCapGuardAddr].data))
              && Covers(m, GetAccountsToUpdate(lib, r.state))
  {
    match Get(m, self.stakePoolAddr)
    case None => Updated(self, Err(AccountMissing(self.stakePoolAddr)))
    case Some(stakePoolAcc) =>
      var u1 := UpdateStakePool(lib, self, stakePoolAcc.data);
      if u1.result.Err? then u1 else
      var s1 := u1.state;
      match Get(m, s1.stakePool.validatorList)
      case None => Updated(s1, Err(AccountMissing(s1.stakePool.validatorList)))
      case Some(validatorListAcc) =>
        var u2 := UpdateValidatorList(lib, s1, validatorListAcc.data);
        if u2.result.Err? then u2 else
        var s2 := u2.state;
        if !IsDepositCapped(lib, s2) then Updated(s2, Ok(()))
        else match Get(m, s2.depositCapGuardAddr)
          case None => Updated(s2, Err(AccountMissing(s2.depositCapGuardAddr)))
          case Some(depositCapAcc) =>
            match lib.parseDepositCap(depositCapAcc.data)
            case None => Updated(s2, Err(Deserialize))
            case Some(cap) => Updated(s2.(depositCap := Some(cap)), Ok(()))
  }

  /**
   * The refresh reads nothing beyond the main account and the addresses the
   * refreshed adapter tracks: two snapshots that agree there give the same
   * state and the same outcome.
   */
  lemma UpdateReadsOnlyTrackedAccounts(lib: SplLib, self: SplStakePoolStakedex, m1: AccountMap, m2: AccountMap)
    requires Get(m1, self.stakePoolAddr) == Get(m2, self.stakePoolAddr)
    requires forall k :: k in GetAccountsToUpdate(lib, Update(lib, self, m1).state) ==> Get(m1, k) == Get(m2, k)
    ensures Update(lib, self, m2) == Update(lib, self, m1)
  {
  }

  /**
   * The addresses are listed from the pool as it was BEFORE the refresh, while
   * the refresh looks up the validator list named by the pool it has just
   * parsed. When the main account now names a validator list that is not
   * tracked, a snapshot holding every tracked address still fails, and leaves
   * the new pool in place.
   */
  lemma StaleValidatorListKeyFailsRefresh(lib: SplLib, self: SplStakePoolStakedex, data: Bytes, pool: StakePool)
    returns (m: AccountMap)
    requires lib.parseStakePool(data) == Some(pool)
    requires pool.validatorList !in GetAccountsToUpdate(lib, self)
    ensures Covers(m, GetAccountsToUpdate(lib, self))
    ensures Update(lib, self, m) == Updated(self.(stakePool := pool), Err(AccountMissing(pool.validatorList)))
  {
    var tracked := GetAccountsToUpdate(lib, self);
    m := map k | k in tracked :: Account(0, data, DEFAULT_PUBKEY);
    assert tracked[0] in tracked;
    assert m[self.stakePoolAddr].data == data;
  }

  /** Applying the same snapshot again after a successful refresh changes nothing. */
  lemma UpdateIsIdempotent(lib: SplLib, self: SplStakePoolStakedex, m: AccountMap)
    requires Update(lib, self, m).result.Ok?
    ensures Update(lib, Update(lib, self, m).state, m) == Update(lib, self, m)
  {
  }

  /**
   * The refresh never moves the adapter's epoch, which is the router's epoch
   * at initialisation; after a refresh the staleness test compares the new
   * pool's last update with that epoch.
   */
  lemma UpdatedThisEpochAfterRefresh(lib: SplLib, self: SplStakePoolStakedex, m: AccountMap)
    requires self.stakePoolAddr in m && lib.parseStakePool(m[self.stakePoolAddr].data).Some?
    ensures Update(lib, self, m).state.currEpoch == self.currEpoch
    ensures IsUpdatedThisEpoch(Update(lib, self, m).state)
            <==> lib.parseStakePool(m[self.stakePoolAddr].data).value.lastUpdateEpoch >= self.currEpoch
  {
  }

  /** The variant that also tracks the lamports of the pool's reserve stake account. */
  datatype SplStakePoolStakedexWithWithdrawSol = SplStakePoolStakedexWithWithdrawSol(
    inner: SplStakePoolStakedex,
    reserveStakeLamports: Option<NonZeroU64>)

  /** Initialisation: the plain adapter's, with no reserve balance known yet. */
  function WithdrawSolFromKeyedAccount(lib: SplLib, keyed: KeyedAccount, ctx: AmmContext)
    : (r: Result<SplStakePoolStakedexWithWithdrawSol, Error>)
    ensures r.Ok? <==> FromKeyedAccount(lib, keyed, ctx).Ok?
    ensures r.Ok? ==> r.value.inner == FromKeyedAccount(lib, keyed, ctx).value && r.value.reserveStakeLamports == None
    ensures r.Err? ==> r.error == Deserialize
  {
    var inner :- FromKeyedAccount(lib, keyed, ctx);
    Ok(SplStakePoolStakedexWithWithdrawSol(inner, None))
  }

  /** The plain adapter's addresses followed by the pool's reserve stake account. */
  function WithdrawSolGetAccountsToUpdate(lib: SplLib, self: SplStakePoolStakedexWithWithdrawSol): (r: seq<Pubkey>)
    ensures |r| == |GetAccountsToUpdate(lib, self.inner)| + 1
    ensures r[..|r| - 1] == GetAccountsToUpdate(lib, self.inner)
    ensures r[|r| - 1] == self.inner.stakePool.reserveStake
  {
    GetAccountsToUpdate(lib, self.inner) + [self.inner.stakePool.reserveStake]
  }

  /**
   * Refresh: the plain adapter's refresh, then the balance of the reserve
   * stake named by the refreshed pool, which must be nonzero.
   */
  function WithdrawSolUpdate(lib: SplLib, self: SplStakePoolStakedexWithWithdrawSol, m: AccountMap)
    : (r: Updated<SplStakePoolStakedexWithWithdrawSol>)
    // the inner adapter always ends as the plain refresh leaves it
    ensures r.state.inner == Update(lib, self.inner, m).state
    ensures Update(lib, self.inner, m).result.Err? ==>
              r.result == Update(lib, self.inner, m).result && r.state.reserveStakeLamports == self.reserveStakeLamports
    ensures Update(lib, self.inner, m).result.Ok? ==>
              var reserve := r.state.inner.stakePool.reserveStake;
              && (reserve !in m ==> r.result == Err(AccountMissing(reserve)))
              && (reserve in m && m[reserve].lamports == 0 ==> r.result == Err(Program(WrongStakeStake)))
    ensures r.result.Err? ==> r.state.reserveStakeLamports == self.reserveStakeLamports
    ensures r.result.Ok? <==>
              && Update(lib, self.inner, m).result.Ok?
              && r.state.inner.stakePool.reserveStake in m
              && m[r.state.inner.stakePool.reserveStake].lamports > 0
    ensures r.result.Ok? ==>
              && r.state.reserveStakeLamports == Some(m[r.state.inner.stakePool.reserveStake].lamports)
              && Covers(m, WithdrawSolGetAccountsToUpdate(lib, r.state))
  {
    var u := Update(lib, self.inner, m);
    var s := self.(inner := u.state);
    if u.result.Err? then Updated(s, u.result) else
    match Get(m, s.inner.stakePool.reserveStake)
    case None => Updated(s, Err(AccountMissing(s.inner.stakePool.reserveStake)))
    case Some(reserveStake) =>
      if reserveStake.lamports == 0 then Updated(s, Err(Program(WrongStakeStake)))
      else Updated(s.(reserveStakeLamports := Some(reserveStake.lamports)), Ok(()))
  }
}

=== FILE: unstake_it.dfy ===
/**
 * The unstake.it instant-unstake pool: its on-chain state and its deposit-stake
 * quote (stake account in, lamports out of the pool's SOL reserves, minus a fee).
 */
module UnstakeIt {
  import opened Common

  /** `unstake_interface::Rational`. */
  datatype Rational = Rational(num: U64, denom: U64)

  /** The fee schedule stored in the pool's fee account. */
  datatype FeeEnum =
    | Flat(ratio: Rational)
    | LiquidityLinear(maxLiqRemaining: Rational, zeroLiqRemaining: Rational)

  /** The pool's main account, reduced to the one field the quote logic reads. */
  datatype Pool = Pool(incomingStake: U64)

  /** The protocol-fee account, reduced to the one field the quote logic reads. */
  datatype ProtocolFee = ProtocolFee(destination: Pubkey)

  /** The minimal pool statistics the fee curves depend on. */
  datatype PoolBalance = PoolBalance(poolIncomingStake: U64, solReservesLamports: U64)

  /**
   * Code this model calls but does not define: account deserialisation and the
   * fee curves. Each is a total function returning `None` where the Rust
   * function returns `None` or an error.
   *   applyFee(fee, incomingStake, solReserves, stakeLamports) is `apply_fee`;
   *   pseudoReverse(fee, balance, lamportsAfterFee) is `FeeEnum::pseudo_reverse`.
   */
  datatype UnstakeLib = UnstakeLib(
    parseFeeAccount: Bytes -> Option<FeeEnum>,
    parsePoolAccount: Bytes -> Option<Pool>,
    parseProtocolFeeAccount: Bytes -> Option<ProtocolFee>,
    applyFee: (FeeEnum, U64, U64, U64) -> Option<U64>,
    pseudoReverse: (FeeEnum, PoolBalance, U64) -> Option<U64>)

  /** The adapter's state: the pool, its fee, its reserve balance and its protocol fee. */
  datatype UnstakeItStakedex = UnstakeItStakedex(
    fee: FeeEnum,
    pool: Pool,
    solReservesLamports: U64,
    protocolFee: ProtocolFee)

  /**
   * Paying `tokensOut` out of `reserves` is allowed: it does not exceed the
   * reserves, and either drains them exactly or leaves at least the rent-exempt
   * minimum of an empty account behind.
   */
  predicate PayoutLeavesReservesAlive(reserves: U64, tokensOut: U64) {
    tokensOut == reserves
    || (tokensOut < reserves && reserves - tokensOut >= ZERO_DATA_ACC_RENT_EXEMPT_LAMPORTS)
  }

  /** The pool accepts stake deposits unconditionally. */
  function CanAcceptStakeDeposits(self: UnstakeItStakedex): (r: bool)
    ensures r
  {
    true
  }

  /**
   * The quote for depositing the stake account valued by `q`. Every infeasible
   * case (no fee computable, not enough reserves, reserves left below the
   * rent-exempt floor) yields the all-zero default quote instead of an error.
   */
  function DepositStakeQuoteUnchecked(lib: UnstakeLib, self: UnstakeItStakedex, q: WithdrawStakeQuote)
    : (r: DepositStakeQuote)
    // no fee: the sentinel
    ensures lib.applyFee(self.fee, self.pool.incomingStake, self.solReservesLamports, q.lamportsOut).None?
            ==> r == DEFAULT_DEPOSIT_STAKE_QUOTE
    // a fee: a real quote exactly when the payout net of the fee is allowed
    ensures lib.applyFee(self.fee, self.pool.incomingStake, self.solReservesLamports, q.lamportsOut).Some? ==>
              var fee := lib.applyFee(self.fee, self.pool.incomingStake, self.solReservesLamports, q.lamportsOut).value;
              var net := if fee <= q.lamportsOut then q.lamportsOut - fee else 0;
              if PayoutLeavesReservesAlive(self.solReservesLamports, net)
              then r == DepositStakeQuote(net, fee, q.voter)
              else r == DEFAULT_DEPOSIT_STAKE_QUOTE
    // whatever the fee curve, the payout never exceeds the stake's value nor the reserves
    ensures r.tokensOut <= q.lamportsOut
    ensures PayoutLeavesReservesAlive(self.solReservesLamports, r.tokensOut) || r == DEFAULT_DEPOSIT_STAKE_QUOTE
    ensures r.tokensOut <= self.solReservesLamports
    ensures r.voter == q.voter || r == DEFAULT_DEPOSIT_STAKE_QUOTE
  {
    match lib.applyFee(self.fee, self.pool.incomingStake, self.solReservesLamports, q.lamportsOut)
    case None => DEFAULT_DEPOSIT_STAKE_QUOTE
    case Some(feeAmount) =>
      var tokensOut := SaturatingSub(q.lamportsOut, feeAmount);
      if tokensOut > self.solReservesLamports then
        // not enough liquidity
        DEFAULT_DEPOSIT_STAKE_QUOTE
      else if tokensOut < self.solReservesLamports
              && self.solReservesLamports - tokensOut < ZERO_DATA_ACC_RENT_EXEMPT_LAMPORTS then
        // would leave the reserves below the rent-exempt minimum
        DEFAULT_DEPOSIT_STAKE_QUOTE
      else
        DepositStakeQuote(tokensOut, feeAmount, q.voter)
  }

  /**
   * The three-way comparison of the net payout against the reserves: more
   * than the reserves gets the sentinel, exactly the reserves gets a quote, and
   * less gets the sentinel when the residual is below the rent-exempt minimum
   * of an empty account and a quote otherwise.
   */
  lemma PayoutBoundaries(lib: UnstakeLib, self: UnstakeItStakedex, q: WithdrawStakeQuote, fee: U64)
    requires lib.applyFee(self.fee, self.pool.incomingStake, self.solReservesLamports, q.lamportsOut) == Some(fee)
    ensures var net := SaturatingSub(q.lamportsOut, fee);
            net > self.solReservesLamports ==> DepositStakeQuoteUnchecked(lib, self, q) == DEFAULT_DEPOSIT_STAKE_QUOTE
    ensures var net := SaturatingSub(q.lamportsOut, fee);
            net == self.solReservesLamports ==> DepositStakeQuoteUnchecked(lib, self, q) == DepositStakeQuote(net, fee, q.voter)
    ensures var net := SaturatingSub(q.lamportsOut, fee);
            net < self.solReservesLamports ==>
              DepositStakeQuoteUnchecked(lib, self, q)
              == if self.solReservesLamports - net < ZERO_DATA_ACC_RENT_EXEMPT_LAMPORTS
                 then DEFAULT_DEPOSIT_STAKE_QUOTE
                 else DepositStakeQuote(net, fee, q.voter)
  {
  }

  /**
   * A payout that would leave one lamport less than the rent-exempt floor in
   * the reserves gets the sentinel, not a quote.
   */
  lemma ReservesOneBelowFloorIsSentinel(lib: UnstakeLib, self: UnstakeItStakedex, q: WithdrawStakeQuote, fee: U64)
    requires lib.applyFee(self.fee, self.pool.incomingStake, self.solReservesLamports, q.lamportsOut) == Some(fee)
    requires fee <= q.lamportsOut
    requires self.solReservesLamports == q.lamportsOut - fee + ZERO_DATA_ACC_RENT_EXEMPT_LAMPORTS - 1
    ensures DepositStakeQuoteUnchecked(lib, self, q) == DEFAULT_DEPOSIT_STAKE_QUOTE
  {
  }

  /**
   * Worked example with a flat 0.3% fee: 10,000,000 lamports of stake against
   * 5,000,000,000 lamports of reserves pay a fee of 30,000 and yield 9,970,000.
   */
  lemma FlatFeeExample(lib: UnstakeLib, self: UnstakeItStakedex, q: WithdrawStakeQuote)
    requires forall f: FeeEnum, i: U64, s: U64, l: U64 :: lib.applyFee(f, i, s, l) == Some(l * 3 / 1000)
    requires self.solReservesLamports == 5_000_000_000
    requires q.lamportsOut == 10_000_000
    ensures DepositStakeQuoteUnchecked(lib, self, q) == DepositStakeQuote(9_970_000, 30_000, q.voter)
  {
  }
}
